=== FILE: README.md ===
# Virtual dropdown: a verified model of its state machine

The repository is a WinForms dropdown that never holds its items. The
closed control (`VirtualDropDown`) shows one selected label. It knows only
the item count, the selected index, the cached selected text and whether it
is dropped down. The popup list (`VirtualDropDownList`) shows a window of
rows. It owns the scroll offset, the hovered index and a vertical
scrollbar. Whenever a label has to be shown, either control fires a
`RetrieveItem` request at the host for that one index.

This project models that protocol in Dafny:

- `csharp_int.dfy` (`CSharpInt`): `Math.Min`/`Math.Max`, C#'s truncating
  integer division, and 32-bit wrap-around.
- `host.dfy` (`Host`): the host's `RetrieveItem` handler, as a total function
  `int -> Option<string>`. `None` stands for "no item or no text", which
  shows as `""`.
- `drop_down_rules.dfy` (`DropDownRules`): the pure rules of the closed
  control. These are the popup height and the four-way visual state.
- `list_rules.dfy` (`ListRules`): the pure rules of the popup. These are
  visible rows, offset clamping, scrollbar configuration, the indices a
  paint visits, the row under the pointer and the wheel step.
- `widgets.dfy` (`Widgets`): both controls as classes whose methods update
  their fields as the event handlers do. The two classes refer to each
  other, so they share one module. `retrieved` logs every `RetrieveItem`
  request, and `selectionChanges` counts `SelectedIndexChanged`
  notifications.
- `scenarios.dfy` (`Scenarios`): client code that drives the controls the
  way a host and a user do. It uses only the contracts.

`VirtualDropDown.Valid()` is the object invariant. The control is dropped
down exactly while its current popup exists and has not closed. The cached text is the one the selected index had at its
last refresh. The `ItemCount` getter and `GetItemCount` are reads of the
field `virtualCount`.

The model follows the code where a stricter behaviour might be expected:

- a negative `ItemCount` is stored, not rejected. In the program a later open or paint then throws: opening fails for counts -107374182 to -1. Below that the 32-bit height alternates between bands: where it is non-negative the popup opens and its first paint fails, and where it is negative opening fails (see `ShowDropdown` under "## Left out");
- an out-of-range `SelectedIndex` is stored unclamped, and only the text
  falls back to `""`;
- shrinking `ItemCount` does not refresh the cached `selectedText`, so the
  old text stays until the index is next assigned a different value
  (`Scenarios.ShrinkUnderSelection`);
- the hovered index is never cleared when the pointer leaves the rows.

## Model

| member | source | states |
|---|---|---|
| `Widgets.VirtualDropDown.constructor` | VirtualDropDown.cs:13-16 | A new control is closed, has no popup, count 0, selected index -1 and text "", and no request or notification has fired. |
| `Widgets.VirtualDropDown.SetItemCount` | VirtualDropDown.cs:43-47 | Any count is stored as given. Selected index, selected text and the dropped-down flag are unchanged. |
| `Widgets.VirtualDropDown.SetSelectedIndex` | VirtualDropDown.cs:51-64 | Assigning the current value changes nothing and notifies nobody. Any other value is stored unclamped. The text becomes the host's answer when the value is in `[0, count)` and "" otherwise. The host is asked only in the in-range case. `SelectedIndexChanged` fires exactly once. |
| `Widgets.VirtualDropDown.UpdateSelectedText` | VirtualDropDown.cs:79-91 | Text is the host's answer for an in-range index (one request) and "" with no request otherwise. Re-establishes the invariant. |
| `Widgets.VirtualDropDown.Retrieve` | VirtualDropDown.cs:93-96 | One `RetrieveItem` request for the index is logged. The answer's text is returned, or "" when there is none. |
| `Widgets.VirtualDropDown.PaintState` | VirtualDropDown.cs:113-125 | The painted state is `VisualState(Enabled, droppedDown, pointerOver)`. |
| `DropDownRules.VisualState` | VirtualDropDown.cs:113-125 | Disabled iff not enabled; Pressed iff enabled and dropped down; Hot iff enabled, closed and hovered; Normal iff enabled, closed and not hovered. Exactly one holds. |
| `Widgets.VirtualDropDown.OnMouseDown` | VirtualDropDown.cs:170-178 | A left press toggles the popup (a fresh popup when opening, leaving any earlier closed popup as it was). Any other button changes neither the control nor its popup. |
| `Widgets.VirtualDropDown.ToggleDropdown` | VirtualDropDown.cs:202-212 | The flag flips. Opening yields a fresh popup sized by `DropHeight`, scrolled to 0, nothing hovered, its scrollbar at the constructor's defaults, and leaves any earlier closed popup untouched. Closing closes the old popup and forgets it. |
| `Widgets.VirtualDropDown.ShowDropdown` | VirtualDropDown.cs:214-227 | The control is dropped down with a fresh, open popup of height `DropHeight(ItemCount)` and the control's width. Nothing is hovered, the offset and scrollbar value are 0, and the scrollbar is shown with Maximum 100 and LargeChange `(height-4)/20`. |
| `Widgets.VirtualDropDown.CloseDropdown` | VirtualDropDown.cs:229-235 | Afterwards the control is closed with no popup, and the previous popup is closed. From any state, so closing twice equals closing once. |
| `Widgets.VirtualDropDown.SelectItem` | VirtualDropDown.cs:237-241 | Ends with `SelectedIndex == index`, closed, and no popup. Text and notification follow the `SelectedIndex` setter's rule. |
| `DropDownRules.DropHeight` | VirtualDropDown.cs:216 | The height is `min(count*20+4, 200)`, so it is at most 200, and at least 4 for a count of at least 0. |
| `DropDownRules.DropHeightByCount` | VirtualDropDown.cs:216 | Fewer than 10 items get exactly `count*20+4` pixels; 10 or more get 200. |
| `DropDownRules.DropHeightAsWritten` | VirtualDropDown.cs:216 | The code's 32-bit computation never exceeds 200. |
| `DropDownRules.DropHeightAsWrittenAgrees` | VirtualDropDown.cs:216 | For counts 0 to 107374182 the 32-bit computation equals `DropHeight`. |
| `DropDownRules.DropHeightAsWrittenOverflows` | VirtualDropDown.cs:216 | With 107374183 items the 32-bit height is -2147483632, while the intended height is 200. |
| `DropDownRules.DropHeightAsWrittenNegative` | VirtualDropDown.cs:216 | The 32-bit height is negative for every count from -107374182 to -1 and from 107374183 to 214748364. |
| `DropDownRules.DropHeightAsWrittenWrapsPositive` | VirtualDropDown.cs:216 | Past that band the wrapped height is positive but wrong: 8 pixels for 214748365 items, where 200 is intended. For -107374183 items it is 200. |
| `Widgets.VirtualDropDownList.constructor` | VirtualDropDownList.cs:5-43 | A fresh popup has hovered index -1, offset 0, scrollbar value 0 and default Maximum, and LargeChange `(height-4)/20`. It is open. |
| `ListRules.VisibleRowsIsCeiling` | VirtualDropDownList.cs:69 | For `Height >= 2`, `(Height-2+19)/20` is the ceiling of `(Height-2)/20`. |
| `ListRules.OpenedPopupRows` | VirtualDropDownList.cs:69 | A popup opened for `count >= 0` items has room for `min(count+1, 10)` rows. So its scrollbar is needed iff there are more than 10 items. |
| `ListRules.ClampOffset` | VirtualDropDownList.cs:51 | The offset is at most the value and at most `max(0, total - visible)`, and equals one of them. It is at least 0 for a non-negative value. |
| `Widgets.VirtualDropDownList.OnScrollBarValueChanged` | VirtualDropDownList.cs:45-53 | The offset becomes `min(Value, max(0, total - visible))`. It stays within `[0, max(0, total - visible)]`. |
| `Widgets.VirtualDropDownList.SetScrollValue` | VirtualDropDownList.cs:29 | Assigning the scrollbar value stores it. Only a change runs the ValueChanged handler and re-clamps the offset. |
| `ListRules.LastPageReachable` | VirtualDropDownList.cs:47-51 | With a shown scrollbar, the largest thumb value clamps to the last page, whose last row is the last item. |
| `ListRules.ScrollValueShowing` | VirtualDropDownList.cs:45-53 | For every item there is a scrollbar value in `[0, Maximum]` whose clamped offset paints that item. |
| `ListRules.SyncScrollBar` | VirtualDropDownList.cs:71-82 | Shown with `Maximum == total` and `LargeChange == visible` iff `total > visible`. Otherwise hidden with `Maximum == 0` and `LargeChange == total`. |
| `ListRules.PopupExamples` | VirtualDropDownList.cs:69-82 | 1000 items in 200 pixels give 10 rows, a scrollbar to 1000 paging by 10, and value 995 clamped to offset 990. 3 items hide the scrollbar. |
| `Widgets.VirtualDropDownList.OnPaint` | VirtualDropDownList.cs:61-112 | The scrollbar takes `SyncScrollBar(total, visible)` and the offset is untouched. Row `k` shows item `VisibleIndices(...)[k]` at `y = 2 + 20k` with its fill and the host's text. The host is asked for exactly the visible indices, in order. |
| `ListRules.VisibleIndicesShape` | VirtualDropDownList.cs:92-95 | The paint visits `offset, offset+1, ...`, and there are `min(visible, total - offset)` of them, or none. |
| `ListRules.VisibleIndicesMembership` | VirtualDropDownList.cs:92-95 | An index is visited iff it lies in `[offset, offset+visible)` and below `total`. |
| `ListRules.VisibleIndicesBounded` | VirtualDropDownList.cs:92-108 | With a non-negative offset, at most `visible` indices are retrieved. They are strictly ascending, so each appears once, and all lie in `[0, total)`. |
| `ListRules.FillFor` | VirtualDropDownList.cs:98-105 | A row is highlighted iff it is hovered. It is tinted iff it is not hovered but is the parent's selection. |
| `Widgets.VirtualDropDownList.GetItemText` | VirtualDropDownList.cs:114-125 | Outside `[0, count)` it returns "" without asking the host. Inside, it makes one request and returns the host's text. |
| `Widgets.VirtualDropDownList.OnMouseMove` | VirtualDropDownList.cs:127-138 | The candidate `offset + (Y-2)/20` is taken only if it is new, lies in `[offset, count)`, and `X < itemAreaWidth + 2`. Otherwise the hovered index is unchanged. |
| `ListRules.HoverMatchesPaintedRow` | VirtualDropDownList.cs:129 | For `Y >= 2` the candidate is the item of the painted row whose band `[2+20k, 2+20(k+1))` contains `Y`. |
| `ListRules.HoverAboveFirstRow` | VirtualDropDownList.cs:129 | Truncating division makes `Y` in `(-18, 2)` hover the first visible row. |
| `ListRules.HoverWithinWindow` | VirtualDropDownList.cs:129 | A pointer at `2 <= Y < Height` hovers an index inside the painted row window. |
| `Widgets.VirtualDropDownList.OnMouseClick` | VirtualDropDownList.cs:140-146 | A hovered index in `[0, count)` is committed through `SelectItem`, which closes the popup and clears the parent's flag. The item count and `Enabled` keep their values in every case. Otherwise nothing changes. |
| `ListRules.WheelStep` | VirtualDropDownList.cs:150 | One notch is -1 for a positive delta and +1 otherwise. |
| `ListRules.WheelValue` | VirtualDropDownList.cs:151 | The new value is at least 0, at most `Maximum` when `Maximum >= 0`, and moves by one notch unless that would leave `[0, Maximum]`. |
| `Widgets.VirtualDropDownList.OnMouseWheel` | VirtualDropDownList.cs:148-152 | The value becomes `max(0, min(Maximum, Value + step))`. A change re-clamps the offset through the ValueChanged handler. |
| `Widgets.VirtualDropDownList.OnFormClosing` | VirtualDropDownList.cs:154-160 | The parent's dropped-down flag is cleared. |
| `Widgets.VirtualDropDownList.Close` | VirtualDropDownList.cs:162-165 | Closing an open popup clears the parent's flag and keeps the parent's invariant. Closing a closed one changes nothing. |
| `Widgets.VirtualDropDownList.OnDeactivate` | VirtualDropDownList.cs:55-59 | Losing focus closes the popup and clears the parent's flag. It commits no selection: index, text and notification count are unchanged. The parent keeps its reference to the closed popup. |

## Findings

| source | as written | input that shows it | evidently intended | confidence | as-written member | corrected member |
|---|---|---|---|---|---|---|
| VirtualDropDown.cs:216 | `_virtualCount * ItemHeight + 4` is evaluated in 32-bit `int`, then `Math.Min` with 200 | `ItemCount = 107374183`: the product wraps, the popup height is -2147483632, and opening fails when VirtualDropDownList.cs:27 hands the scrollbar a negative `LargeChange` | height 200 for every count of 10 or more | medium, not executed; assumes the default unchecked arithmetic | `DropDownRules.DropHeightAsWrittenOverflows` | `DropDownRules.DropHeight` |
| VirtualDropDown.cs:216 | the same 32-bit expression | `ItemCount = 214748365`: the product wraps past zero and the popup opens 8 pixels tall, showing one row | height 200 for every count of 10 or more | medium, not executed; assumes the default unchecked arithmetic | `DropDownRules.DropHeightAsWrittenWrapsPositive` | `DropDownRules.DropHeight` |

## Left out

- Drawing is not modelled: brushes, pens, `VisualStyleRenderer`, `TextRenderer`, glyph sizing, border and row fills. Only the choice of fill per row (`FillFor`) and the visual state are kept. The hovered row's text colour follows its `Highlight` fill.
- Window plumbing is not modelled: `PointToScreen`, `Show`, `StartPosition`, `Location`, `FormBorderStyle`, scrollbar placement, the fixed control height of 23, and resizing: the control's width is a constant fixed when it is built, whereas the code passes the current `Width` on every open (VirtualDropDown.cs:217), so after a resize the model's popup keeps the old width and its hover test the old row-area width. The operating system may adjust a window's size; the popup's height is taken as passed.
- `Invalidate()` calls and `OnMouseEnter`/`OnMouseLeave`/`OnResize` are not modelled, because they only request repaints. A repaint is the caller invoking `OnPaint`.
- Whether the pointer is over the closed control (`Cursor.Position`) is a parameter of `PaintState`.
- Event wiring is not modelled. The host's handler is one fixed function per control, so subscribing and unsubscribing are not modelled.
- The scrollbar control's own checks are not modelled: rejecting a `Value` above `Maximum`, pulling `Value` down when `Maximum` shrinks, and rejecting a negative `LargeChange`. `SetScrollValue` only demands the scrollbar's Minimum of 0. One visible consequence: when `ItemCount` shrinks below the scrollbar's Value while the popup is open, the real `OnPaint` lowers `Maximum`, the scrollbar pulls `Value` down and `OnScrollBarValueChanged` moves the offset (VirtualDropDownList.cs:73, 79), whereas the model keeps the offset. For example, 1000 items scrolled to offset 990 and then shrunk to 3 paint no rows in the model, where the program paints items 0 to 2.
- Window messages that arrive while the popup is closing, such as a second `Deactivate`, are not modelled.
- `Widgets.VirtualDropDown.ShowDropdown`: opens the popup at the corrected height `DropHeight`. The code's 32-bit height is `DropHeightAsWritten`, which agrees with it for counts 0 to 107374182 (`DropHeightAsWrittenAgrees`). For counts from 107374183 to 214748364 and from -107374182 to -1 the code's height is negative (`DropHeightAsWrittenNegative`). The popup's initializer then assigns the scrollbar a negative `LargeChange` (VirtualDropDownList.cs:27), which the scrollbar rejects, so opening fails with an exception and no popup opens. Further out the product wraps again: the height can come out positive but wrong, such as 8 pixels for 214748365 items (`DropHeightAsWrittenWrapsPositive`), or negative in later bands. Below -107374182 the wrapped height alternates between bands. Where it is non-negative, as from -107374183 down to -214748365, the popup opens and its first paint fails when it assigns the negative count as `LargeChange` (VirtualDropDownList.cs:79). Where it is negative, opening fails as above. In all these cases the model opens a popup at `DropHeight` and paints it (see Findings).
- 32-bit wrap-around is modelled only for the popup height, by `DropHeightAsWritten`, and the controls do not use it. Offsets, hover candidates and wheel values stay far from the `int` limits for real pointer coordinates and non-negative item counts. For a count within `visibleItems` of `int.MinValue`, `totalItems - visibleItems` at VirtualDropDownList.cs:51 wraps; the model does not follow that.
- The popup's public `CloseDropdown` (VirtualDropDownList.cs:162-165) only calls `Close()`, so the model's `Close` stands for both.

=== FILE: csharp_int.dfy ===
/** C# integer semantics that differ from Dafny's: `Math.Min`/`Math.Max`,
    division that truncates toward zero, and 32-bit wrap-around of unchecked
    arithmetic. */
module CSharpInt {

  const Int32Modulus := 0x1_0000_0000
  const Int32Min := -0x8000_0000
  const Int32Max := 0x7FFF_FFFF

  function Min(a: int, b: int): (m: int)
    ensures m <= a && m <= b
    ensures m == a || m == b
  {
    if a <= b then a else b
  }

  function Max(a: int, b: int): (m: int)
    ensures a <= m && b <= m
    ensures m == a || m == b
  {
    if a >= b then a else b
  }

  /** C#'s `a / b` on `int` for a positive divisor: the quotient rounded
      toward zero (Dafny's own `/` rounds toward negative infinity). */
  function TruncDiv(a: int, b: int): (q: int)
    requires 0 < b
    ensures 0 <= a ==> 0 <= q && q * b <= a < q * b + b
    ensures a < 0 ==> q <= 0 && q * b - b < a <= q * b
  {
    if 0 <= a then
      var q := a / b;
      assert a == q * b + a % b && 0 <= a % b < b;
      q
    else
      var p := (-a) / b;
      assert -a == p * b + (-a) % b && 0 <= (-a) % b < b;
      assert (-p) * b == -(p * b);
      -p
  }

  predicate IsInt32(x: int) {
    Int32Min <= x <= Int32Max
  }

  /** The value an unchecked 32-bit C# operation leaves behind for the
      mathematical result `x`. */
  function WrapInt32(x: int): (r: int)
    ensures IsInt32(r)
    ensures (r - x) % Int32Modulus == 0
    ensures IsInt32(x) ==> r == x
  {
    var m := x % Int32Modulus;
    if m <= Int32Max then m else m - Int32Modulus
  }
}

=== FILE: drop_down_rules.dfy ===
/** The pure rules of the closed control (VirtualDropDown.cs): the height of
    the popup it opens and the visual state it paints itself in. */
module DropDownRules {
  import opened CSharpInt

  /** Height of one row of the popup list, in pixels. */
  const ItemHeight := 20
  /** The popup never grows taller than this many pixels. */
  const MaxDropdownHeight := 200
  /** Pixels added to the rows for the popup's border. */
  const DropdownPadding := 4

  /** Height of the popup opened for `count` items: room for every row plus
      the border, capped at `MaxDropdownHeight`. Computed without overflow;
      see DropHeightAsWritten for the 32-bit computation of the code. */
  function DropHeight(count: int): (h: int)
    ensures h <= MaxDropdownHeight
    ensures h <= count * ItemHeight + DropdownPadding
    ensures h == MaxDropdownHeight || h == count * ItemHeight + DropdownPadding
    ensures 0 <= count ==> DropdownPadding <= h
  {
    Min(count * ItemHeight + DropdownPadding, MaxDropdownHeight)
  }

  /** Short lists get a popup exactly as tall as their rows; from ten items
      on the popup has its full height. */
  lemma DropHeightByCount(count: int)
    requires 0 <= count
    ensures count < 10 ==> DropHeight(count) == count * ItemHeight + DropdownPadding
    ensures 10 <= count ==> DropHeight(count) == MaxDropdownHeight
  {
  }

  /** The height as the code computes it: `_virtualCount * ItemHeight + 4`
      in unchecked 32-bit arithmetic, then `Math.Min` with 200. */
  function DropHeightAsWritten(count: int): (h: int)
    requires IsInt32(count)
    ensures h <= MaxDropdownHeight
  {
    Min(WrapInt32(WrapInt32(count * ItemHeight) + DropdownPadding), MaxDropdownHeight)
  }

  /** Up to 107374182 items the 32-bit computation agrees with DropHeight. */
  lemma DropHeightAsWrittenAgrees(count: int)
    requires 0 <= count <= 107374182
    ensures DropHeightAsWritten(count) == DropHeight(count)
  {
  }

  /** With 107374183 items the product overflows and the popup height comes
      out negative instead of 200. */
  lemma DropHeightAsWrittenOverflows()
    ensures IsInt32(107374183)
    ensures DropHeight(107374183) == MaxDropdownHeight
    ensures DropHeightAsWritten(107374183) == -2147483632
  {
  }

  /** Opening the popup fails in the code when the 32-bit height is
      negative, which the scrollbar's LargeChange then rejects: for every
      count from -107374182 to -1, and for every count from 107374183 to
      214748364, the first band where the product wraps. */
  lemma DropHeightAsWrittenNegative(count: int)
    requires -107374182 <= count <= -1 || 107374183 <= count <= 214748364
    ensures IsInt32(count)
    ensures DropHeightAsWritten(count) < 0
  {
  }

  /** Past the first band the wrapped height can be positive and wrong:
      214748365 items get an 8-pixel popup instead of a 200-pixel one, and
      -107374183 items a full-height popup. */
  lemma DropHeightAsWrittenWrapsPositive()
    ensures DropHeight(214748365) == MaxDropdownHeight
    ensures DropHeightAsWritten(214748365) == 8
    ensures DropHeightAsWritten(-107374183) == MaxDropdownHeight
  {
  }

  /** The four visual states of the closed control's box. */
  datatype ComboState = Normal | Hot | Pressed | Disabled

  /** The state the control paints itself in: disabled wins over open,
      open wins over the pointer hovering, and otherwise it is normal. */
  function VisualState(enabled: bool, droppedDown: bool, pointerOver: bool): (s: ComboState)
    ensures s == Disabled <==> !enabled
    ensures s == Pressed <==> enabled && droppedDown
    ensures s == Hot <==> enabled && !droppedDown && pointerOver
    ensures s == Normal <==> enabled && !droppedDown && !pointerOver
  {
    if !enabled then Disabled
    else if droppedDown then Pressed
    else if pointerOver then Hot
    else Normal
  }
}

=== FILE: host.dfy ===
/** The host application's side of the lazy retrieval protocol: it owns the
    items and answers a RetrieveItem request for one index at a time. */
module Host {

  datatype Option<+T> = None | Some(value: T)

  /** The host's RetrieveItem handler, as a total function of the requested
      index: `Some(text)` when it supplies an item with text, `None` when it
      supplies no item or an item without text. */
  type ItemSource = int -> Option<string>

  /** The label shown for one answer; a missing item or a missing text
      shows as the empty string. */
  function TextOf(answer: Option<string>): string {
    match answer
    case Some(t) => t
    case None => ""
  }

  /** The text displayed for `index` among `count` items: the host's answer
      when the index is in range, the empty string otherwise. */
  function DisplayText(source: ItemSource, index: int, count: int): string {
    if 0 <= index < count then TextOf(source(index)) else ""
  }

  /** The retrieval requests fired while looking up `index` among `count`
      items: the index itself when it is in range, none otherwise. */
  function RequestsFor(index: int, count: int): seq<int> {
    if 0 <= index < count then [index] else []
  }
}

=== FILE: list_rules.dfy ===
/** The pure rules of the popup list (VirtualDropDownList.cs): how many rows
    fit, how the scroll offset is clamped, how the scrollbar is configured,
    which indices a paint visits, which row the pointer is over and where
    the mouse wheel moves the scrollbar. */
module ListRules {
  import opened CSharpInt
  import opened DropDownRules

  /** The rows start this many pixels below the popup's top edge and this
      many pixels right of its left edge. */
  const BorderInset := 2
  /** Width of the popup's vertical scrollbar, in pixels. */
  const ScrollBarWidth := 16
  /** The scrollbar's Maximum before the first paint sets it. */
  const DefaultScrollBarMaximum := 100

  /** Rows that fit in a popup of the given height, a partially visible
      last row included: `(Height - 2 + ItemHeight - 1) / ItemHeight`. */
  function VisibleRows(height: int): int {
    TruncDiv(height - BorderInset + ItemHeight - 1, ItemHeight)
  }

  /** For a popup at least as tall as its top inset, VisibleRows is the
      ceiling of the inner height over the row height. */
  lemma VisibleRowsIsCeiling(height: int)
    requires BorderInset <= height
    ensures 0 <= VisibleRows(height)
    ensures (VisibleRows(height) - 1) * ItemHeight < height - BorderInset <= VisibleRows(height) * ItemHeight
  {
  }

  /** The popup opened for `count` items has room for `count + 1` rows when
      it is short and ten rows at full height; so the scrollbar is needed exactly
      when there are more than ten items. */
  lemma OpenedPopupRows(count: int)
    requires 0 <= count
    ensures VisibleRows(DropHeight(count)) == Min(count + 1, 10)
    ensures count > VisibleRows(DropHeight(count)) <==> count > 10
  {
  }

  /** The scroll offset for scrollbar value `value`: never past the first
      row of the last page, `Math.Min(Value, Math.Max(0, total - visible))`. */
  function ClampOffset(value: int, total: int, visible: int): (offset: int)
    ensures offset <= value
    ensures offset <= Max(0, total - visible)
    ensures offset == value || offset == Max(0, total - visible)
    ensures 0 <= value ==> 0 <= offset
  {
    Min(value, Max(0, total - visible))
  }

  /** The scrollbar's Visible, Maximum and LargeChange. */
  datatype ScrollBarConfig = ScrollBarConfig(visible: bool, maximum: int, largeChange: int)

  /** The configuration a paint gives the scrollbar for `total` items and
      `visible` rows: shown, ranging over all items and paging by a screen
      when the items do not fit; hidden with Maximum 0 otherwise. */
  function SyncScrollBar(total: int, visible: int): (c: ScrollBarConfig)
    ensures c.visible <==> total > visible
    ensures c.visible ==> c.maximum == total && c.largeChange == visible
    ensures !c.visible ==> c.maximum == 0 && c.largeChange == total
  {
    if total > visible then ScrollBarConfig(true, total, visible)
    else ScrollBarConfig(false, 0, total)
  }

  /** The item indices a paint visits, in order: `offset + i` for
      `i = 0, 1, ...` while `i < visible` and `offset + i < total`. */
  function VisibleIndices(offset: int, visible: int, total: int): seq<int>
    decreases visible
  {
    if visible <= 0 || offset >= total then []
    else [offset] + VisibleIndices(offset + 1, visible - 1, total)
  }

  /** The visited indices are consecutive from `offset`, and there are as
      many as fit both in the rows and before the end of the items. */
  lemma {:induction false} VisibleIndicesShape(offset: int, visible: int, total: int)
    ensures |VisibleIndices(offset, visible, total)|
            == if visible <= 0 || offset >= total then 0 else Min(visible, total - offset)
    ensures forall k :: 0 <= k < |VisibleIndices(offset, visible, total)|
              ==> VisibleIndices(offset, visible, total)[k] == offset + k
    decreases visible
  {
    if visible <= 0 || offset >= total {
    } else {
      VisibleIndicesShape(offset + 1, visible - 1, total);
      var w := VisibleIndices(offset, visible, total);
      var rest := VisibleIndices(offset + 1, visible - 1, total);
      assert w == [offset] + rest;
      forall k | 0 <= k < |w| ensures w[k] == offset + k {
        if k > 0 { assert w[k] == rest[k - 1]; }
      }
    }
  }

  /** An index is visited exactly when it lies in the row window
      `[offset, offset + visible)` and before the end of the items. */
  lemma VisibleIndicesMembership(offset: int, visible: int, total: int, x: int)
    ensures x in VisibleIndices(offset, visible, total)
            <==> offset <= x < offset + visible && x < total
  {
    VisibleIndicesShape(offset, visible, total);
    var w := VisibleIndices(offset, visible, total);
    if offset <= x < offset + visible && x < total {
      assert w[x - offset] == x;
    }
  }

  /** A paint visits at most `visible` indices, strictly ascending (so each
      at most once), all of them in range when the offset is not negative. */
  lemma VisibleIndicesBounded(offset: int, visible: int, total: int)
    requires 0 <= offset
    ensures |VisibleIndices(offset, visible, total)| <= Max(0, visible)
    ensures forall i, j :: 0 <= i < j < |VisibleIndices(offset, visible, total)|
              ==> VisibleIndices(offset, visible, total)[i] < VisibleIndices(offset, visible, total)[j]
    ensures forall x :: x in VisibleIndices(offset, visible, total) ==> 0 <= x < total
  {
    VisibleIndicesShape(offset, visible, total);
    forall x | x in VisibleIndices(offset, visible, total) ensures 0 <= x < total {
      VisibleIndicesMembership(offset, visible, total, x);
    }
  }

  /** Every item can be brought on screen: some value the scrollbar can hold
      gives an offset whose paint visits item `x`. */
  lemma ScrollValueShowing(total: int, visible: int, x: int) returns (value: int)
    requires 0 < visible && 0 <= x < total
    ensures 0 <= value <= SyncScrollBar(total, visible).maximum
    ensures x in VisibleIndices(ClampOffset(value, total, visible), visible, total)
  {
    value := if total > visible then x else 0;
    VisibleIndicesMembership(ClampOffset(value, total, visible), visible, total, x);
  }

  /** Dragging the thumb to the end (Value = Maximum - LargeChange + 1) of a
      shown scrollbar gives the last full page, whose last row is the last
      item. */
  lemma LastPageReachable(total: int, visible: int)
    requires 0 < visible < total
    ensures var c := SyncScrollBar(total, visible);
            var offset := ClampOffset(c.maximum - c.largeChange + 1, total, visible);
            offset == total - visible &&
            |VisibleIndices(offset, visible, total)| == visible &&
            VisibleIndices(offset, visible, total)[visible - 1] == total - 1
  {
    VisibleIndicesShape(total - visible, visible, total);
  }

  /** Worked examples: 1000 items in a 200-pixel popup show 10 rows, the
      scrollbar ranges to 1000 paging by 10, and a value of 995 is clamped
      to offset 990; 3 items in the same popup hide the scrollbar. */
  lemma PopupExamples()
    ensures VisibleRows(200) == 10
    ensures SyncScrollBar(1000, 10) == ScrollBarConfig(true, 1000, 10)
    ensures ClampOffset(995, 1000, 10) == 990
    ensures SyncScrollBar(3, 10) == ScrollBarConfig(false, 0, 3)
  {
  }

  /** Top edge of the `k`-th painted row. */
  function RowTop(k: int): int {
    BorderInset + k * ItemHeight
  }

  /** Background of a painted row. */
  datatype Fill = Highlight | SelectedTint | NoFill

  /** Hover wins over selection; other rows get no fill. */
  function FillFor(index: int, hovered: int, selected: int): (f: Fill)
    ensures f == Highlight <==> index == hovered
    ensures f == SelectedTint <==> index != hovered && index == selected
  {
    if index == hovered then Highlight
    else if index == selected then SelectedTint
    else NoFill
  }

  /** One painted row: its item index, top edge, text and background. */
  datatype Row = Row(index: int, top: int, text: string, fill: Fill)

  /** The item under a pointer at height `y`: `offset + (y - 2) / 20` in
      C#'s truncating division. */
  function HoverCandidate(offset: int, y: int): int {
    offset + TruncDiv(y - BorderInset, ItemHeight)
  }

  /** Width of the row area: the popup's width less the scrollbar when it
      is shown and less the borders. */
  function ItemAreaWidth(width: int, scrollBarVisible: bool): int {
    width - (if scrollBarVisible then ScrollBarWidth else 0) - 2 * BorderInset
  }

  /** A mouse move takes the candidate as the new hovered index only if it
      is new, lies between the first visible row and the last item, and the
      pointer is left of the scrollbar strip. */
  predicate AcceptsHover(candidate: int, hovered: int, offset: int, count: int, x: int, areaWidth: int) {
    candidate != hovered && candidate >= offset && candidate < count && x < areaWidth + BorderInset
  }

  /** Below the top inset, the candidate is the item of the painted row the
      pointer is over: that row's top edge is at or above `y` and the next
      row's is below it. */
  lemma HoverMatchesPaintedRow(offset: int, y: int)
    requires BorderInset <= y
    ensures var k := (y - BorderInset) / ItemHeight;
            0 <= k && RowTop(k) <= y < RowTop(k + 1) && HoverCandidate(offset, y) == offset + k
  {
  }

  /** Truncation toward zero makes a pointer on the top border (up to 19
      pixels above the first row) count as being over the first row. */
  lemma HoverAboveFirstRow(offset: int, y: int)
    requires BorderInset - ItemHeight < y < BorderInset
    ensures HoverCandidate(offset, y) == offset
  {
  }

  /** A pointer inside the popup below the top inset hovers a row the paint
      draws: the candidate lies in the row window. */
  lemma HoverWithinWindow(offset: int, y: int, height: int)
    requires BorderInset <= y < height
    ensures offset <= HoverCandidate(offset, y) < offset + VisibleRows(height)
  {
  }

  /** One wheel notch moves one row: up (-1) for a positive delta, down
      (+1) otherwise. */
  function WheelStep(delta: int): (d: int)
    ensures d == -1 <==> delta > 0
    ensures d == 1 <==> delta <= 0
  {
    if delta > 0 then -1 else 1
  }

  /** The scrollbar value after one wheel notch:
      `Math.Max(0, Math.Min(Maximum, Value + step))`. */
  function WheelValue(value: int, maximum: int, delta: int): (v: int)
    ensures 0 <= v
    ensures 0 <= maximum ==> v <= maximum
    ensures 0 <= value <= maximum ==>
              if delta > 0 then v == Max(0, value - 1) else v == Min(maximum, value + 1)
  {
    Max(0, Min(maximum, value + WheelStep(delta)))
  }
}

=== FILE: scenarios.dfy ===
/** Client code that drives the two controls the way a host and a user do,
    and checks what the contracts promise along the way. */
module Scenarios {
  import opened CSharpInt
  import opened Host
  import opened DropDownRules
  import opened ListRules
  import opened Widgets

  /** Open a 1000-item dropdown and drag the scrollbar to 995: the offset
      is clamped to the last page. */
  method OpenLongList(source: ItemSource) returns (control: VirtualDropDown, popup: VirtualDropDownList)
    ensures fresh(control) && fresh(popup) && control.retrieve == source
    ensures control.Valid() && control.dropdownForm == popup && popup.Live() && popup.Valid()
    ensures control.virtualCount == 1000 && control.selectedIndex == -1 && control.enabled
    ensures control.retrieved == [] && control.selectionChanges == 0
    ensures popup.height == 200 && popup.width == 120 && popup.hoveredIndex == -1
    ensures popup.scrollOffset == 990
  {
    control := new VirtualDropDown(source, 120);
    control.SetItemCount(1000);
    control.OnMouseDown(Left);
    popup := control.dropdownForm;
    PopupExamples();
    popup.SetScrollValue(995);
  }

  /** Painting the scrolled popup asks the host for items 990 to 999 only
      and shows the scrollbar over the whole list. */
  method PaintLongList(control: VirtualDropDown, popup: VirtualDropDownList)
    requires popup.Valid() && popup.parent == control
    requires control.virtualCount == 1000 && popup.height == 200 && popup.scrollOffset == 990
    requires control.retrieved == []
    requires popup.Live() && popup.hoveredIndex == -1
    modifies popup`scrollMaximum, popup`scrollLargeChange, popup`scrollVisible, control`retrieved
    ensures popup.Live() && popup.scrollVisible
    ensures |control.retrieved| == 10 && control.retrieved[0] == 990 && control.retrieved[9] == 999
  {
    PopupExamples();
    var rows := popup.OnPaint();
    ghost var window := VisibleIndices(popup.scrollOffset, VisibleRows(popup.height), control.virtualCount);
    VisibleIndicesShape(popup.scrollOffset, VisibleRows(popup.height), control.virtualCount);
    assert control.retrieved == window && |window| == 10;
    assert window[0] == 990 && window[9] == 999;
    assert rows[0].index == 990 && rows[9].index == 999;
    assert popup.scrollVisible && popup.scrollMaximum == 1000;
  }

  /** Open and scroll a 1000-item list, paint it, hover its second row and
      click: item 991 is committed with one more retrieval and the popup
      closes. */
  method PickFromLongList(source: ItemSource)
  {
    var control, popup := OpenLongList(source);
    PaintLongList(control, popup);
    assert TruncDiv(25 - BorderInset, ItemHeight) == 1;
    assert ItemAreaWidth(120, true) == 100;
    popup.OnMouseMove(5, 25);
    assert popup.hoveredIndex == 991;
    popup.OnMouseClick();
    assert control.selectedIndex == 991 && !control.isDroppedDown && popup.closed;
    assert control.selectedText == TextOf(source(991));
    assert control.selectionChanges == 1 && |control.retrieved| == 11 && control.retrieved[10] == 991;
    assert control.virtualCount == 1000 && control.enabled;
  }

  /** Shrinking the item count does not touch the selection: the cached
      text stays until the index is assigned again, and assigning the same
      index again does nothing. */
  method ShrinkUnderSelection(source: ItemSource)
  {
    var control := new VirtualDropDown(source, 120);
    control.SetItemCount(5);
    control.SetSelectedIndex(2);
    assert control.selectedText == TextOf(source(2)) && control.retrieved == [2];
    control.SetItemCount(0);
    assert control.selectedIndex == 2 && control.selectedText == TextOf(source(2));
    control.SetSelectedIndex(2);
    assert control.selectionChanges == 1;
    control.SetSelectedIndex(-1);
    assert control.selectedText == "" && control.selectionChanges == 2 && control.retrieved == [2];
  }

  /** Losing focus closes the popup without committing the hovered row. */
  method DeactivateWithoutCommit(source: ItemSource)
  {
    var control := new VirtualDropDown(source, 120);
    control.SetItemCount(3);
    control.OnMouseDown(Left);
    var popup := control.dropdownForm;
    OpenedPopupRows(3);
    popup.OnMouseMove(5, 45);
    assert popup.hoveredIndex == 2;
    control.OnMouseDown(Right);
    assert control.isDroppedDown && popup.hoveredIndex == 2 && popup.scrollOffset == 0;
    popup.OnMouseWheel(-1);
    assert popup.scrollValue == 1 && popup.scrollOffset == 0;
    popup.OnDeactivate();
    assert !control.isDroppedDown && control.selectedIndex == -1 && control.selectionChanges == 0;
    control.OnMouseDown(Left);
    assert control.isDroppedDown && control.dropdownForm != popup && popup.closed;
  }
}

=== FILE: widgets.dfy ===
/** The two cooperating controls: the closed control that owns the selection
    (VirtualDropDown.cs) and the popup list that shows a window of rows
    (VirtualDropDownList.cs). They refer to each other, so they share one
    module. */
module Widgets {
  import opened CSharpInt
  import opened Host
  import opened DropDownRules
  import opened ListRules

  datatype MouseButton = Left | Right | Middle

  /** The closed control: one line showing the selected item's text. */
  class VirtualDropDown {
    var isDroppedDown: bool
    var selectedIndex: int
    var virtualCount: int
    var selectedText: string
    /** The popup opened last; it stays referenced after it closes itself. */
    var dropdownForm: VirtualDropDownList?
    /** The control's Enabled property. */
    var enabled: bool
    /** The host's RetrieveItem handler. */
    const retrieve: ItemSource
    /** The control's width, handed to the popup it opens. */
    const width: int
    /** Index of every RetrieveItem request fired so far, oldest first. */
    var retrieved: seq<int>
    /** Number of SelectedIndexChanged notifications fired so far. */
    var selectionChanges: nat
    /** The item count in force when `selectedText` was last refreshed. */
    ghost var textCount: int

    /** The control and its popup agree: the control is dropped down exactly
        while its current popup exists and has not closed, and a popup it
        refers to has it as parent. */
    ghost predicate Linked()
      reads this, dropdownForm
    {
      (dropdownForm != null ==> dropdownForm.parent == this) &&
      (isDroppedDown <==> dropdownForm != null && !dropdownForm.closed)
    }

    /** Linked, and the cached text is the one the selected index had when
        it was last refreshed. */
    ghost predicate Valid()
      reads this, dropdownForm
    {
      Linked() && selectedText == DisplayText(retrieve, selectedIndex, textCount)
    }

    /** The current popup is the fresh one ShowDropdown opens: sized for
        the item count, nothing hovered, scrolled to the top, and its
        scrollbar still as the popup's constructor set it up. */
    ghost predicate JustOpened()
      reads this, dropdownForm
    {
      dropdownForm != null && dropdownForm.parent == this && !dropdownForm.closed &&
      dropdownForm.Valid() && dropdownForm.width == width &&
      dropdownForm.height == DropHeight(virtualCount) &&
      dropdownForm.hoveredIndex == -1 && dropdownForm.scrollOffset == 0 &&
      dropdownForm.scrollValue == 0 && dropdownForm.scrollVisible &&
      dropdownForm.scrollMaximum == DefaultScrollBarMaximum &&
      dropdownForm.scrollLargeChange == TruncDiv(dropdownForm.height - 2 * BorderInset, ItemHeight)
    }

    constructor (retrieve: ItemSource, width: int)
      ensures Valid()
      ensures this.retrieve == retrieve && this.width == width
      ensures !isDroppedDown && dropdownForm == null && enabled
      ensures selectedIndex == -1 && virtualCount == 0 && selectedText == ""
      ensures retrieved == [] && selectionChanges == 0
    {
      this.retrieve := retrieve;
      this.width := width;
      isDroppedDown := false;
      selectedIndex := -1;
      virtualCount := 0;
      selectedText := "";
      dropdownForm := null;
      enabled := true;
      retrieved := [];
      selectionChanges := 0;
      textCount := 0;
    }

    /** The ItemCount setter: any value is stored as given; the selection
        and its cached text are left as they are. */
    method SetItemCount(n: int)
      requires Valid()
      modifies this`virtualCount
      ensures Valid() && virtualCount == n
      ensures selectedIndex == old(selectedIndex) && selectedText == old(selectedText)
      ensures isDroppedDown == old(isDroppedDown)
    {
      virtualCount := n;
    }

    /** The SelectedIndex setter. Assigning the current value does nothing;
        any other value is stored unclamped, the text is refreshed and
        SelectedIndexChanged fires once. */
    method SetSelectedIndex(value: int)
      requires Valid()
      modifies this`selectedIndex, this`selectedText, this`textCount, this`retrieved, this`selectionChanges
      ensures Valid() && selectedIndex == value
      ensures old(selectedIndex) == value ==> unchanged(this)
      ensures old(selectedIndex) != value ==>
                selectedText == DisplayText(retrieve, value, virtualCount) &&
                retrieved == old(retrieved) + RequestsFor(value, virtualCount) &&
                selectionChanges == old(selectionChanges) + 1
    {
      if selectedIndex != value {
        selectedIndex := value;
        UpdateSelectedText();
        selectionChanges := selectionChanges + 1;
      }
    }

    /** Recomputes the cached text: the host's answer when the selected
        index is in range (one retrieval request), otherwise the empty
        string without asking the host. */
    method UpdateSelectedText()
      requires Linked()
      modifies this`selectedText, this`textCount, this`retrieved
      ensures Valid() && textCount == virtualCount
      ensures selectedText == DisplayText(retrieve, selectedIndex, virtualCount)
      ensures retrieved == old(retrieved) + RequestsFor(selectedIndex, virtualCount)
    {
      if selectedIndex > -1 && selectedIndex < virtualCount {
        selectedText := Retrieve(selectedIndex);
      } else {
        selectedText := "";
      }
      textCount := virtualCount;
    }

    /** Fires RetrieveItem for `index` and reads the host's answer. */
    method Retrieve(index: int) returns (text: string)
      modifies this`retrieved
      ensures text == TextOf(retrieve(index))
      ensures retrieved == old(retrieved) + [index]
    {
      text := TextOf(retrieve(index));
      retrieved := retrieved + [index];
    }

    /** The state OnPaint draws the box in, given whether the pointer is
        over the control. */
    method PaintState(pointerOver: bool) returns (state: ComboState)
      ensures state == VisualState(enabled, isDroppedDown, pointerOver)
    {
      state := Normal;
      if !enabled {
        state := Disabled;
      } else if isDroppedDown {
        state := Pressed;
      } else if pointerOver {
        state := Hot;
      }
    }

    /** A left button press toggles the popup; other buttons do nothing. */
    method OnMouseDown(button: MouseButton)
      requires Valid()
      modifies this`dropdownForm, this`isDroppedDown, dropdownForm
      ensures Valid()
      ensures button == Left ==> isDroppedDown == !old(isDroppedDown)
      ensures button == Left && isDroppedDown ==> fresh(dropdownForm) && JustOpened()
      ensures button == Left && !isDroppedDown ==>
                dropdownForm == null && old(dropdownForm) != null && old(dropdownForm).closed
      ensures button != Left ==> unchanged(this) && isDroppedDown == old(isDroppedDown)
      ensures button != Left && dropdownForm != null ==> unchanged(dropdownForm)
      ensures !old(isDroppedDown) && old(dropdownForm) != null ==> unchanged(old(dropdownForm))
    {
      if button == Left {
        ToggleDropdown();
      }
    }

    /** Closes the popup when dropped down, opens a fresh one otherwise. */
    method ToggleDropdown()
      requires Valid()
      modifies this`dropdownForm, this`isDroppedDown, dropdownForm
      ensures Valid() && isDroppedDown == !old(isDroppedDown)
      ensures isDroppedDown ==> fresh(dropdownForm) && JustOpened()
      ensures !isDroppedDown ==>
                dropdownForm == null && old(dropdownForm) != null && old(dropdownForm).closed
      ensures !old(isDroppedDown) && old(dropdownForm) != null ==> unchanged(old(dropdownForm))
    {
      if isDroppedDown {
        CloseDropdown();
      } else {
        ShowDropdown();
      }
    }

    /** Opens a popup of height DropHeight(ItemCount) below the control. */
    method ShowDropdown()
      requires Valid() && !isDroppedDown
      modifies this`dropdownForm, this`isDroppedDown
      ensures Valid() && isDroppedDown
      ensures fresh(dropdownForm) && JustOpened()
    {
      var dropHeight := DropHeight(virtualCount);
      dropdownForm := new VirtualDropDownList(this, width, dropHeight);
      isDroppedDown := true;
    }

    /** Closes the current popup, if any, and forgets it. Closing when
        already closed leaves the control closed. */
    method CloseDropdown()
      requires Valid()
      modifies this`dropdownForm, this`isDroppedDown, dropdownForm
      ensures Valid() && !isDroppedDown && dropdownForm == null
      ensures old(dropdownForm) != null ==> old(dropdownForm).closed
    {
      if dropdownForm != null {
        dropdownForm.Close();
      }
      dropdownForm := null;
      isDroppedDown := false;
    }

    /** Commits a selection made in the popup and closes it. */
    method SelectItem(index: int)
      requires Valid()
      modifies this`selectedIndex, this`selectedText, this`textCount, this`retrieved, this`selectionChanges
      modifies this`dropdownForm, this`isDroppedDown, dropdownForm
      ensures Valid() && selectedIndex == index && !isDroppedDown && dropdownForm == null
      ensures old(dropdownForm) != null ==> old(dropdownForm).closed
      ensures virtualCount == old(virtualCount)
      ensures old(selectedIndex) == index ==>
                selectedText == old(selectedText) && retrieved == old(retrieved) &&
                selectionChanges == old(selectionChanges)
      ensures old(selectedIndex) != index ==>
                selectedText == DisplayText(retrieve, index, virtualCount) &&
                retrieved == old(retrieved) + RequestsFor(index, virtualCount) &&
                selectionChanges == old(selectionChanges) + 1
    {
      SetSelectedIndex(index);
      CloseDropdown();
    }
  }

  /** The popup list: a borderless window showing the rows of the item
      window `[scrollOffset, scrollOffset + VisibleRows(height))`. */
  class VirtualDropDownList {
    const parent: VirtualDropDown
    const width: int
    const height: int
    var hoveredIndex: int
    var scrollOffset: int
    /** The scrollbar's Value, Maximum, LargeChange and Visible. */
    var scrollValue: int
    var scrollMaximum: int
    var scrollLargeChange: int
    var scrollVisible: bool
    /** Set once the window has been closed. */
    var closed: bool

    /** The scrollbar never goes below its Minimum of 0, and neither does
        the offset derived from it. */
    ghost predicate Valid()
      reads this
    {
      0 <= scrollValue && 0 <= scrollOffset
    }

    /** The popup is open and is its parent's current popup: the only state
        in which the window receives input. */
    ghost predicate Live()
      reads this, parent, parent.dropdownForm
    {
      parent.Valid() && parent.dropdownForm == this && !closed
    }

    function ScrollBar(): ScrollBarConfig
      reads this
    {
      ScrollBarConfig(scrollVisible, scrollMaximum, scrollLargeChange)
    }

    /** The row the paint draws `k`-th, for item `index`. */
    function PaintedRow(k: int, index: int): Row
      reads this, parent
    {
      Row(index, RowTop(k), TextOf(parent.retrieve(index)), FillFor(index, hoveredIndex, parent.selectedIndex))
    }

    /** A fresh popup: nothing hovered, scrolled to the top. */
    constructor (parent: VirtualDropDown, width: int, height: int)
      ensures Valid()
      ensures this.parent == parent && this.width == width && this.height == height
      ensures hoveredIndex == -1 && scrollOffset == 0 && !closed
      ensures scrollValue == 0 && scrollMaximum == DefaultScrollBarMaximum
      ensures scrollLargeChange == TruncDiv(height - 2 * BorderInset, ItemHeight) && scrollVisible
    {
      this.parent := parent;
      this.width := width;
      this.height := height;
      hoveredIndex := -1;
      scrollOffset := 0;
      scrollValue := 0;
      scrollMaximum := DefaultScrollBarMaximum;
      scrollLargeChange := TruncDiv(height - 2 * BorderInset, ItemHeight);
      scrollVisible := true;
      closed := false;
    }

    /** The scrollbar's ValueChanged handler: the offset follows the value
        but never passes the first row of the last page. */
    method OnScrollBarValueChanged()
      requires Valid()
      modifies this`scrollOffset
      ensures Valid()
      ensures scrollOffset == ClampOffset(scrollValue, parent.virtualCount, VisibleRows(height))
      ensures scrollOffset <= Max(0, parent.virtualCount - VisibleRows(height))
    {
      var totalItems := parent.virtualCount;
      var visibleItems := VisibleRows(height);
      scrollOffset := Min(scrollValue, Max(0, totalItems - visibleItems));
    }

    /** Assigning the scrollbar's Value (by the wheel handler or by the user
        dragging the thumb); ValueChanged fires only when the value
        changes. */
    method SetScrollValue(value: int)
      requires Valid() && 0 <= value
      modifies this`scrollValue, this`scrollOffset
      ensures Valid() && scrollValue == value
      ensures value != old(scrollValue) ==>
                scrollOffset == ClampOffset(value, parent.virtualCount, VisibleRows(height))
      ensures value == old(scrollValue) ==> scrollOffset == old(scrollOffset)
    {
      if value != scrollValue {
        scrollValue := value;
        OnScrollBarValueChanged();
      }
    }

    /** Repaints the popup: configures the scrollbar for the current item
        count, then draws the rows of the visible window, asking the host
        for the text of those items and of no other. The offset and the
        hovered index are left as they are. */
    method OnPaint() returns (rows: seq<Row>)
      requires Valid()
      modifies this`scrollMaximum, this`scrollLargeChange, this`scrollVisible, parent`retrieved
      ensures Valid() && (old(Live()) ==> Live())
      ensures ScrollBar() == SyncScrollBar(parent.virtualCount, VisibleRows(height))
      ensures parent.retrieved ==
                old(parent.retrieved) + VisibleIndices(scrollOffset, VisibleRows(height), parent.virtualCount)
      ensures |rows| == |VisibleIndices(scrollOffset, VisibleRows(height), parent.virtualCount)|
      ensures forall k :: 0 <= k < |rows| ==>
                rows[k] == PaintedRow(k, VisibleIndices(scrollOffset, VisibleRows(height), parent.virtualCount)[k])
    {
      var totalItems := parent.virtualCount;
      var visibleItems := VisibleRows(height);
      if totalItems > visibleItems {
        scrollMaximum := totalItems;
        scrollLargeChange := visibleItems;
        scrollVisible := true;
      } else {
        scrollMaximum := 0;
        scrollLargeChange := totalItems;
        scrollVisible := false;
      }

      ghost var window := VisibleIndices(scrollOffset, visibleItems, totalItems);
      VisibleIndicesShape(scrollOffset, visibleItems, totalItems);
      rows := [];
      var i := 0;
      while i < visibleItems && scrollOffset + i < totalItems
        invariant 0 <= i <= |window|
        invariant ScrollBar() == SyncScrollBar(totalItems, visibleItems)
        invariant |rows| == i
        invariant forall k :: 0 <= k < i ==> rows[k] == PaintedRow(k, window[k])
        invariant parent.retrieved == old(parent.retrieved) + window[..i]
      {
        var itemIndex := scrollOffset + i;
        var y := BorderInset + i * ItemHeight;
        var fill := FillFor(itemIndex, hoveredIndex, parent.selectedIndex);
        var text := GetItemText(itemIndex);
        rows := rows + [Row(itemIndex, y, text, fill)];
        i := i + 1;
      }
      assert window[..i] == window;
    }

    /** The text of one item: the host's answer for an index in
        `[0, ItemCount)`, the empty string without asking the host
        otherwise. */
    method GetItemText(index: int) returns (text: string)
      modifies parent`retrieved
      ensures text == DisplayText(parent.retrieve, index, parent.virtualCount)
      ensures parent.retrieved == old(parent.retrieved) + RequestsFor(index, parent.virtualCount)
    {
      if index < 0 || index >= parent.virtualCount {
        return "";
      }
      text := parent.Retrieve(index);
    }

    /** A pointer move at `(x, y)` hovers the row under it when the row is
        new, lies between the first visible row and the last item, and the
        pointer is not over the scrollbar; otherwise nothing changes. */
    method OnMouseMove(x: int, y: int)
      modifies this`hoveredIndex
      ensures var candidate := HoverCandidate(scrollOffset, y);
              hoveredIndex == if AcceptsHover(candidate, old(hoveredIndex), scrollOffset, parent.virtualCount,
                                              x, ItemAreaWidth(width, scrollVisible))
                              then candidate else old(hoveredIndex)
      ensures hoveredIndex != old(hoveredIndex) ==> scrollOffset <= hoveredIndex < parent.virtualCount
    {
      var itemIndex := HoverCandidate(scrollOffset, y);
      var itemAreaWidth := ItemAreaWidth(width, scrollVisible);
      if itemIndex != hoveredIndex && itemIndex >= scrollOffset && itemIndex < parent.virtualCount
         && x < itemAreaWidth + BorderInset
      {
        hoveredIndex := itemIndex;
      }
    }

    /** A click commits the hovered item when it is an existing item, which
        closes the popup; otherwise nothing happens. */
    method OnMouseClick()
      requires Live()
      modifies this, parent
      ensures parent.Valid()
      ensures parent.virtualCount == old(parent.virtualCount) && parent.enabled == old(parent.enabled)
      ensures 0 <= old(hoveredIndex) < old(parent.virtualCount) ==>
                parent.selectedIndex == old(hoveredIndex) && !parent.isDroppedDown &&
                parent.dropdownForm == null && closed
      ensures 0 <= old(hoveredIndex) < old(parent.virtualCount) && old(parent.selectedIndex) != old(hoveredIndex) ==>
                parent.selectedText == TextOf(parent.retrieve(old(hoveredIndex))) &&
                parent.retrieved == old(parent.retrieved) + [old(hoveredIndex)] &&
                parent.selectionChanges == old(parent.selectionChanges) + 1
      ensures 0 <= old(hoveredIndex) < old(parent.virtualCount) && old(parent.selectedIndex) == old(hoveredIndex) ==>
                parent.selectedText == old(parent.selectedText) &&
                parent.retrieved == old(parent.retrieved) &&
                parent.selectionChanges == old(parent.selectionChanges)
      ensures !(0 <= old(hoveredIndex) < old(parent.virtualCount)) ==> unchanged(this, parent)
    {
      if hoveredIndex >= 0 && hoveredIndex < parent.virtualCount {
        parent.SelectItem(hoveredIndex);
      }
    }

    /** One wheel notch moves the scrollbar value one row, kept within
        `[0, Maximum]`; a change goes through the ValueChanged handler. */
    method OnMouseWheel(delta: int)
      requires Valid()
      modifies this`scrollValue, this`scrollOffset
      ensures Valid()
      ensures scrollValue == WheelValue(old(scrollValue), scrollMaximum, delta)
      ensures scrollValue != old(scrollValue) ==>
                scrollOffset == ClampOffset(scrollValue, parent.virtualCount, VisibleRows(height))
      ensures scrollValue == old(scrollValue) ==> scrollOffset == old(scrollOffset)
    {
      SetScrollValue(Max(0, Min(scrollMaximum, scrollValue + WheelStep(delta))));
    }

    /** The FormClosing handler: tells the parent it is no longer dropped
        down. */
    method OnFormClosing()
      modifies parent`isDroppedDown
      ensures !parent.isDroppedDown
    {
      parent.isDroppedDown := false;
    }

    /** Closes the window (raising FormClosing); closing a closed window
        does nothing. */
    method Close()
      requires parent.Valid() && (!closed ==> parent.dropdownForm == this)
      modifies this`closed, parent`isDroppedDown
      ensures closed && parent.Valid()
      ensures !old(closed) ==> !parent.isDroppedDown
      ensures old(closed) ==> parent.isDroppedDown == old(parent.isDroppedDown)
    {
      if !closed {
        OnFormClosing();
        closed := true;
      }
    }

    /** Losing focus closes the popup without committing a selection; the
        parent keeps its reference to the closed popup. */
    method OnDeactivate()
      requires Live()
      modifies this`closed, parent`isDroppedDown
      ensures closed && !parent.isDroppedDown && parent.Valid()
      ensures parent.selectedIndex == old(parent.selectedIndex)
      ensures parent.selectedText == old(parent.selectedText)
      ensures parent.selectionChanges == old(parent.selectionChanges)
      ensures parent.dropdownForm == this
    {
      Close();
    }
  }
}
